=== FILE: README.md ===
# Podcast summary bot: verified model of its core

This project models the decision logic of `bot.py`, a scheduled job that watches a podcast feed and posts a summary of each new episode to a Telegram channel. The model covers four pieces:

- **Video-id resolution.** `extract_youtube_video_id_from_url` scans the episode page's JSON-LD blocks for the first `VideoObject` with an `embedUrl`. It then applies `re.search(r"/embed/([A-Za-z0-9_-]{11})")` to that URL. The scan is modelled as two methods, the outer loop (with its `break`s and skipped blocks) calling the inner one. It is proved equal to a pure specification whose properties are stated as lemmas. The regex is a function whose contract is "the group of the leftmost match".
- **Episode identity.** In `check_new_episode`, the latest episode is `entries[0]`. Its identity is `yt_videoid`, or `id` when that is absent.
- **Transcript flattening.** `get_youtube_transcript_from_page` raises when there is no video id. Otherwise it joins the segment texts with single spaces.
- **Poll and advance.** `main` is modelled with `load_last_episode_id` and `save_last_episode_id`. The marker file is one mutable `Option<string>` field of the class `EpisodeBot`, and `Run` is the imperative run. `Run` is proved equal to the function `PollAndAdvance`, and lemmas about that function state the run's guarantees.

The modules are `Wrappers` (Option, Result), `Text` (Python's `str.strip`, `" ".join`, and `split(" ")`, which undoes the join when no part contains a space), `VideoResolver`, `Feed`, `Transcript` and `Bot`.

Outside services are parameters. The page fetch, the transcript service, the Gemini call and the Telegram send are function-typed fields of `Bot.Services`. A `None`, `false` or `HttpError` answer stands for a call that raised.

Behaviour of `bot.py` that the model keeps as written:
- A failed transcript step falls back to the placeholder `"Transcript unavailable."` and the run goes on (bot.py:158-162).
- The summary is only `.strip()`ped (bot.py:92). No code-fence markers are removed.
- The notification is sent as one message, with no chunking (bot.py:102-107).
- A missing marker file does not make every episode new. An entry without any identity on a first run compares `None == None` and notifies nothing (bot.py:149).

## Model

| member | source | states |
|---|---|---|
| Text.Strip | bot.py:130 | `str.strip()`: the result neither starts nor ends with whitespace (Python's `isspace` set) and is no longer than the input |
| Text.StripKeepsInnerSlice | bot.py:130 | the stripped text is the slice of the input that starts at `StripOffset`, and everything before and after that slice is whitespace |
| Text.StripRemovesPadding | bot.py:130 | whitespace put around text that has no surrounding whitespace is exactly what `strip` removes: with `StripKeepsInnerSlice`, the result is the unique such slice |
| Text.TrimStart | bot.py:130 | the leading-whitespace half of `strip`: the result is a suffix, the dropped prefix is all whitespace, and the result does not start with whitespace |
| Text.TrimEnd | bot.py:130 | the trailing-whitespace half of `strip`: the result is a prefix, the dropped suffix is all whitespace, and the result does not end with whitespace |
| Text.StripFixedPoint | bot.py:128-131 | stripping leaves a string unchanged if and only if the string has no surrounding whitespace, so a stored marker reads back exactly when it had none |
| Text.StripIdempotent | bot.py:92 | stripping the model's answer twice gives the same text as stripping it once |
| Text.JoinWithSpace | bot.py:76 | `" ".join`: empty for no parts; otherwise its length is the parts' total length plus one separator between each pair of neighbours, and it starts with the first part |
| Text.JoinAppend | bot.py:76 | `" ".join` of two non-empty batches concatenated equals the two joins separated by one space, so the join is independent of batching |
| Text.SplitJoin | bot.py:76 | when no part contains a space, splitting the joined text on spaces gives back exactly the parts, in order: nothing is lost, duplicated or reordered |
| VideoResolver.MatchFrom | bot.py:61 | returns the first position at or after `from` where `/embed/` plus 11 id characters match, with no match in between; `None` when no such position exists |
| VideoResolver.SearchEmbedId | bot.py:61-63 | `re.search(...).group(1)`: `None` exactly when the pattern matches nowhere; otherwise an 11-character id over `A-Z a-z 0-9 _ -`, namely the group of the leftmost match |
| VideoResolver.MatchIgnoresSuffix | bot.py:61-63 | whether the id pattern matches at a position whose whole pattern span lies inside the string, and the group it captures, do not change when text is appended |
| VideoResolver.SearchIgnoresSuffix | bot.py:61-63 | once a URL contains an id, appending any text leaves the extracted id unchanged |
| VideoResolver.SingleVideoObjectResolves | bot.py:44-63 | a page whose only script block holds a single `VideoObject` whose embed URL contains an id resolves to exactly that id |
| VideoResolver.SearchHttpsEmbedUrl | bot.py:61-63 | for `https://<host>/embed/<id><anything>` with a slash-free host of at least 6 characters, the result is exactly `<id>` |
| VideoResolver.EmbedUrlWithQuery | bot.py:59-63 | the page whose `VideoObject` has `embedUrl` `https://www.youtube.com/embed/abcDEF12345?x=1` resolves to `abcDEF12345` |
| VideoResolver.BlockPick | bot.py:49-53 | the URL the inner loop assigns for a block is the `embedUrl` of one of its qualifying items |
| VideoResolver.BlockPickIsFirstQualifying | bot.py:49-57 | a block assigns a URL if and only if some item qualifies and is preceded only by non-qualifying objects. The URL assigned is that item's `embedUrl` |
| VideoResolver.PickFromBlock | bot.py:50-53 | the inner loop over one block's items returns exactly `BlockPick(items)`: the `embedUrl` it assigns, or none |
| VideoResolver.NonObjectEndsBlock | bot.py:50-57 | a non-object item makes `.get` raise, so items after it in the same block are never examined |
| VideoResolver.Qualifies | bot.py:51 | an item qualifies when it is an object whose `@type` is the string `VideoObject` and that has an `embedUrl` key |
| VideoResolver.ItemsOf | bot.py:49 | a list block is scanned item by item, any other parsed value as a one-item list |
| VideoResolver.Truthy | bot.py:54-59 | Python truthiness of the chosen URL: a string is truthy when non-empty, any other value as it is given |
| VideoResolver.FirstUrl | bot.py:45-57 | the URL the outer loop ends with is truthy |
| VideoResolver.FirstUrlIsFirstStopping | bot.py:46-57 | the scan ends with a URL if and only if some block assigns a truthy one, and then it is the first such block's URL in document order |
| VideoResolver.UnparsableSkipped | bot.py:47-57 | a block that fails to parse is skipped wherever it stands and does not stop the search |
| VideoResolver.LaterBlocksIgnored | bot.py:54-55 | once a block has supplied a truthy URL, later blocks do not change the result |
| VideoResolver.EmptyEmbedUrlDoesNotStop | bot.py:52-55 | a chosen `embedUrl` equal to `""` is falsy: the outer loop continues with the next block |
| VideoResolver.Resolve | bot.py:33-64 | raises exactly on an HTTP failure or a truthy non-string URL. An id is found only from the first truthy URL of the scan, when it is a string, and it is the leftmost-match group of that URL. None is returned exactly when the scan yields no truthy URL, or yields a string the pattern does not match |
| VideoResolver.NoSecondCandidate | bot.py:59-64 | when the chosen URL has no `/embed/` id, the result is None even though a later block has a valid embed URL |
| VideoResolver.ExtractVideoId | bot.py:33-64 | the outer loop with its `break` and `continue`, calling the inner loop, returns exactly `Resolve(page)`, and a found id is a valid video id |
| Feed.EpisodeIdentity | bot.py:119-120 | the identity is `yt_videoid` when present, else `id`. It is absent exactly when both fields are |
| Feed.CheckNewEpisode | bot.py:110-121 | an empty feed gives no episode; otherwise the episode is `entries[0]` with its identity |
| Feed.OnlyLatestEntryMatters | bot.py:118 | entries after the first never affect the poll |
| Feed.NativeIdDecides | bot.py:120 | when `yt_videoid` is present, the generic `id` has no influence on the identity |
| Transcript.Flatten | bot.py:76 | `" ".join` of the segment texts: empty for no segments; otherwise as long as the texts together plus one space between neighbours, starting with the first text. Its partners are `FlattenKeepsOrder` and `FlattenBatches` |
| Transcript.FlattenKeepsOrder | bot.py:76 | the flattened transcript splits back into the segment texts, in order, when no text contains a space |
| Transcript.FlattenBatches | bot.py:76 | flattening is compatible with splitting the segments into consecutive batches |
| Transcript.FetchTranscript | bot.py:67-77 | succeeds exactly when a video id is found and the service answers; the text is then the flattened segments. A missing id gives the "no video" error |
| Transcript.NoVideoNoFetch | bot.py:72-75 | without a video id the service is never consulted: the error is the same whatever the service would return |
| Transcript.GetTranscriptFromPage | bot.py:67-77 | the imperative transcript step, which calls the resolver's loops, returns exactly `FetchTranscript` |
| Bot.Prompt | bot.py:86-90 | the prompt is the fixed instruction `Summarize the following podcast transcript:` and a blank line, then the transcript verbatim, then a blank line and the fixed request `Provide a concise and informative summary.` |
| Bot.PromptDeterminesTranscript | bot.py:86-91 | different transcripts give different prompts |
| Bot.Summarize | bot.py:80-93 | fails exactly when the generation call fails. Otherwise the summary is the answer to `Prompt(transcript)` with surrounding whitespace stripped, so it never has surrounding whitespace |
| Bot.SummaryIsAnswerWithoutPadding | bot.py:91-92 | when the model answers with text between whitespace, the summary is exactly that text |
| Bot.Message | bot.py:102-106 | the message is the headline `New Huberman Lab Episode: ` with the title, then `Link: ` with the page link on the next line, then a blank line, `Summary:` and the summary on its own lines; nothing else |
| Bot.MessageDeterminesSummary | bot.py:102-107 | for a given title and link, different summaries give different messages |
| Bot.LoadLastEpisodeId | bot.py:124-131 | `None` exactly when there is no file; otherwise `Strip` of the content, which equals the content when it had no surrounding whitespace |
| Bot.PaddedMarkerReadsBack | bot.py:128-131 | a marker file holding an identity between whitespace (a trailing newline, say) reads back as exactly that identity |
| Bot.TranscriptOrPlaceholder | bot.py:158-162 | a successful transcript step gives its text; a failed one is replaced by `"Transcript unavailable."` |
| Bot.PollAndAdvance | bot.py:142-164 | one run. There is no episode exactly for an empty feed. The run is "not new" exactly when the latest identity equals the loaded marker, and then the file is untouched. Otherwise the file becomes the identity, or empty when the identity is None, and that run fails. Past the save, the outcome carries `TranscriptOrPlaceholder`. The summary fails exactly when `Summarize` does. A message is the title, the page link and that summary, and it is posted exactly when sending succeeds |
| Bot.EpisodeBot.SaveLastEpisodeId | bot.py:134-139 | the file holds the identity; saving None empties the file and fails |
| Bot.EpisodeBot.Run | bot.py:142-164 | the imperative run: returns the outcome and leaves the file exactly as `PollAndAdvance` says, and a quiet run leaves the file unchanged |
| Bot.RepeatRunIsQuiet | bot.py:148-154 | on an unchanged feed whose latest identity has no surrounding whitespace, a second run posts nothing and writes nothing |
| Bot.MarkerSavedBeforeDownstream | bot.py:153-164 | for a new episode the marker becomes its identity whatever the transcript, summary and post stages do |
| Bot.TranscriptFailureFallsBack | bot.py:158-164 | when the transcript step fails, the placeholder is summarized. If the model answers, exactly one message is sent, with the title, the episode page link and the stripped summary |
| Bot.NewEpisodeIsSummarizedAndPosted | bot.py:153-164 | the whole run for a new episode with an identity. The file becomes the identity. The fetched transcript, or the placeholder, is summarized. The outcome is `SummaryFailed` when the model fails; otherwise the message with the title, the link and the stripped answer is `Posted` or `PostFailed` as sending succeeds or not |
| Bot.FirstRunWithoutIdentityIsQuiet | bot.py:143-151 | with no marker file and an entry without any identity, `None == None` holds and nothing is saved or posted |
| Bot.MissingIdentityNeverNotifies | bot.py:134-154 | once a marker exists, an entry without any identity makes every run empty the file and fail before posting |
| Bot.PaddedIdentityRenotifies | bot.py:128-154 | loading strips but saving does not, so an identity with surrounding whitespace is treated as new on every run |

## Left out

- HTTP fetching and HTML parsing (`requests.get`, `raise_for_status`, BeautifulSoup): the page is given as its JSON-LD blocks in document order, or as an HTTP failure.
- `json.loads`: each block is given as its parse outcome. A JSON value is classified only as far as the resolver looks at it: a string, or any other value with its Python truthiness.
- `feedparser`: the feed is a sequence of entries whose `yt_videoid` and `id` are optional strings. A missing `link` or `title`, which raises after the marker is saved, is not modelled: entries always have both.
- The transcript service (language preference, error kinds): an answer is a list of segments or a failure. A segment without `text` (a `KeyError`, caught like any other transcript error) is not modelled.
- The Gemini client (API key, model name, response object): a function from prompt to answer text, or to failure.
- Telegram (`Bot`, `Request`, `send_message` and its markup): a function from message text to success.
- Real file I/O: the marker file is one `Option<string>` field. Only the failure of `f.write(None)` is modelled; other I/O errors are not.
- The environment-variable check with `exit(1)`, logging, `asyncio.run` and the feed URL constant: process plumbing without decisions.
- Message chunking and code-fence removal from the summary: `bot.py` has neither; it sends one message with the `.strip()`ped summary.

=== FILE: bot.dfy ===
/**
  One run of the bot (`main`): poll the feed, compare the latest identity with the
  stored marker, and for a new episode save the marker first, then fetch the
  transcript (falling back to a placeholder), summarize it and post the result.
 */
module Bot {
  import opened Wrappers
  import opened Text
  import opened VideoResolver
  import opened Feed
  import opened Transcript

  /** What is summarized when no transcript could be obtained. */
  const Placeholder := "Transcript unavailable."

  /** The outside world: page fetch, transcript service, text generation, message delivery.
      `None` / `false` stand for a call that raised. */
  datatype Services = Services(
    fetchPage: string -> Page,
    transcripts: string -> Option<seq<Segment>>,
    generate: string -> Option<string>,
    send: string -> bool)

  const PromptHead := "Summarize the following podcast transcript:\n\n"
  const PromptTail := "\n\nProvide a concise and informative summary."

  /** The prompt of `summarize_transcript`: the transcript verbatim between a fixed instruction and a fixed request. */
  function Prompt(transcript: string): (r: string)
    ensures |r| == |PromptHead| + |transcript| + |PromptTail|
    ensures r[..|PromptHead|] == PromptHead
    ensures r[|PromptHead|..|PromptHead| + |transcript|] == transcript
    ensures r[|PromptHead| + |transcript|..] == PromptTail
  {
    PromptHead + transcript + PromptTail
  }

  /** Different transcripts give different prompts: the model is always asked about the transcript at hand. */
  lemma PromptDeterminesTranscript(a: string, b: string)
    requires Prompt(a) == Prompt(b)
    ensures a == b
  {
  }

  /** `summarize_transcript`: the model's answer, stripped of surrounding whitespace. */
  function Summarize(transcript: string, generate: string -> Option<string>): (r: Option<string>)
    ensures r.None? <==> generate(Prompt(transcript)).None?
    ensures r.Some? ==> IsStripped(r.value)
    ensures r.Some? ==> r.value == Strip(generate(Prompt(transcript)).value)
  {
    match generate(Prompt(transcript))
    case None => None
    case Some(text) => Some(Strip(text))
  }

  const MessageHead := "New Huberman Lab Episode: "
  const LinkLabel := "\nLink: "
  const SummaryLabel := "\n\nSummary:\n"

  /** The text `post_to_telegram` sends: the headline and title, then the labelled link,
      then the labelled summary. */
  function Message(title: string, link: string, summary: string): (r: string)
    ensures |r| == |MessageHead| + |title| + |LinkLabel| + |link| + |SummaryLabel| + |summary|
    ensures r[..|MessageHead| + |title|] == MessageHead + title
    ensures r[|MessageHead| + |title|..|MessageHead| + |title| + |LinkLabel| + |link|] == LinkLabel + link
    ensures r[|r| - |summary| - |SummaryLabel|..] == SummaryLabel + summary
  {
    MessageHead + title + LinkLabel + link + SummaryLabel + summary
  }

  /** For a given episode, the message determines the summary it carries. */
  lemma MessageDeterminesSummary(title: string, link: string, s1: string, s2: string)
    requires Message(title, link, s1) == Message(title, link, s2)
    ensures s1 == s2
  {
    assert s1 == (SummaryLabel + s1)[|SummaryLabel|..];
    assert s2 == (SummaryLabel + s2)[|SummaryLabel|..];
  }

  /** How a run ends. */
  datatype RunOutcome =
    | NoEpisode                                       // the feed has no entries
    | NotNew                                          // the latest identity equals the stored one
    | SaveFailed                                      // the identity was None: writing it raised
    | SummaryFailed(transcript: string)               // the generation call raised
    | PostFailed(transcript: string, message: string) // the delivery call raised
    | Posted(transcript: string, message: string)     // the notification went out

  /** The outcome of a run and the marker file afterwards (`None`: no file). */
  datatype Step = Step(outcome: RunOutcome, file: Option<string>)

  /** `load_last_episode_id`: the file's content without surrounding whitespace, or None without a file. */
  function LoadLastEpisodeId(file: Option<string>): (r: Option<string>)
    ensures r.None? <==> file.None?
    ensures r.Some? ==> IsStripped(r.value)
    ensures r.Some? && IsStripped(file.value) ==> r.value == file.value
    ensures r.Some? ==> r.value == Strip(file.value)
  {
    match file
    case None => None
    case Some(content) =>
      StripFixedPoint(content);
      Some(Strip(content))
  }

  /** The transcript `main` summarizes: the fetched one, or the placeholder when fetching raised. */
  function TranscriptOrPlaceholder(entry: Entry, services: Services): (t: string)
    ensures FetchTranscript(services.fetchPage(entry.link), services.transcripts).Err? ==> t == Placeholder
    ensures FetchTranscript(services.fetchPage(entry.link), services.transcripts).Ok? ==>
              t == FetchTranscript(services.fetchPage(entry.link), services.transcripts).value
  {
    match FetchTranscript(services.fetchPage(entry.link), services.transcripts)
    case Ok(text) => text
    case Err(_) => Placeholder
  }

  predicate Quiet(o: RunOutcome) {
    o.NoEpisode? || o.NotNew?
  }

  /** One run of `main`, given the marker file before it. */
  function PollAndAdvance(file: Option<string>, feed: seq<Entry>, services: Services): (s: Step)
    ensures s.outcome.NoEpisode? <==> feed == []
    ensures s.outcome.NotNew? <==> feed != [] && EpisodeIdentity(feed[0]) == LoadLastEpisodeId(file)
    ensures Quiet(s.outcome) ==> s.file == file
    ensures !Quiet(s.outcome) ==> s.file == Some(EpisodeIdentity(feed[0]).GetOr(""))
    ensures s.outcome.SaveFailed? <==> !Quiet(s.outcome) && EpisodeIdentity(feed[0]).None?
    ensures s.outcome.SummaryFailed? || s.outcome.PostFailed? || s.outcome.Posted? ==>
              s.outcome.transcript == TranscriptOrPlaceholder(feed[0], services)
    ensures s.outcome.SummaryFailed? <==>
              !Quiet(s.outcome) && !s.outcome.SaveFailed?
              && Summarize(TranscriptOrPlaceholder(feed[0], services), services.generate).None?
    ensures s.outcome.PostFailed? || s.outcome.Posted? ==>
              Summarize(s.outcome.transcript, services.generate).Some?
              && s.outcome.message == Message(feed[0].title, feed[0].link, Summarize(s.outcome.transcript, services.generate).value)
    ensures s.outcome.Posted? ==> services.send(s.outcome.message)
    ensures s.outcome.PostFailed? ==> !services.send(s.outcome.message)
  {
    match CheckNewEpisode(feed)
    case NoEntries => Step(NoEpisode, file)
    case Latest(entry, latestId) =>
      if latestId == LoadLastEpisodeId(file) then Step(NotNew, file)
      else if latestId.None? then Step(SaveFailed, Some(""))
      else
        var saved := Some(latestId.value);
        var transcript := TranscriptOrPlaceholder(entry, services);
        match Summarize(transcript, services.generate)
        case None => Step(SummaryFailed(transcript), saved)
        case Some(summary) =>
          var message := Message(entry.title, entry.link, summary);
          if services.send(message) then Step(Posted(transcript, message), saved)
          else Step(PostFailed(transcript, message), saved)
  }

  /** The bot's persistent state: the content of the marker file. */
  class EpisodeBot {
    var lastEpisodeFile: Option<string>

    constructor (file: Option<string>)
      ensures lastEpisodeFile == file
    {
      lastEpisodeFile := file;
    }

    /** `save_last_episode_id`: opening for writing empties the file; writing None then raises. */
    method SaveLastEpisodeId(id: Option<string>) returns (ok: bool)
      modifies this
      ensures ok <==> id.Some?
      ensures lastEpisodeFile == Some(id.GetOr(""))
    {
      lastEpisodeFile := Some("");
      if id.Some? {
        lastEpisodeFile := Some(id.value);
        ok := true;
      } else {
        ok := false;
      }
    }

    /** `main`. */
    method Run(feed: seq<Entry>, services: Services) returns (outcome: RunOutcome)
      modifies this
      ensures Step(outcome, lastEpisodeFile) == PollAndAdvance(old(lastEpisodeFile), feed, services)
      ensures Quiet(outcome) ==> lastEpisodeFile == old(lastEpisodeFile)
    {
      var poll := CheckNewEpisode(feed);
      if poll.NoEntries? {
        return NoEpisode;
      }
      var episode, latestId := poll.entry, poll.identity;
      var lastEpisodeId := LoadLastEpisodeId(lastEpisodeFile);
      if latestId == lastEpisodeId {
        return NotNew;
      }
      var saved := SaveLastEpisodeId(latestId);
      if !saved {
        return SaveFailed;
      }
      var videoPageUrl, title := episode.link, episode.title;
      var transcript: string;
      var fetched := GetTranscriptFromPage(services.fetchPage(videoPageUrl), services.transcripts);
      if fetched.Ok? {
        transcript := fetched.value;
      } else {
        transcript := Placeholder;
      }
      var summary := Summarize(transcript, services.generate);
      if summary.None? {
        return SummaryFailed(transcript);
      }
      var message := Message(title, videoPageUrl, summary.value);
      if services.send(message) {
        outcome := Posted(transcript, message);
      } else {
        outcome := PostFailed(transcript, message);
      }
    }
  }

  // ---------------------------------------------------------------------------
  // Properties of a run

  /** Running again on an unchanged feed notifies nothing and writes nothing, provided
      the latest entry has an identity without surrounding whitespace. */
  lemma RepeatRunIsQuiet(file: Option<string>, feed: seq<Entry>, first: Services, second: Services)
    requires feed != [] && EpisodeIdentity(feed[0]).Some? && IsStripped(EpisodeIdentity(feed[0]).value)
    ensures var after := PollAndAdvance(file, feed, first).file;
            PollAndAdvance(after, feed, second) == Step(NotNew, after)
  {
  }

  /** For a new episode the marker is set to its identity however the transcript, summary
      and post stages turn out: no later failure can undo the save. */
  lemma MarkerSavedBeforeDownstream(file: Option<string>, feed: seq<Entry>, s1: Services, s2: Services)
    requires feed != [] && EpisodeIdentity(feed[0]) != LoadLastEpisodeId(file)
    requires EpisodeIdentity(feed[0]).Some?
    ensures PollAndAdvance(file, feed, s1).file == PollAndAdvance(file, feed, s2).file == EpisodeIdentity(feed[0])
    ensures !Quiet(PollAndAdvance(file, feed, s1).outcome) && !PollAndAdvance(file, feed, s1).outcome.SaveFailed?
  {
  }

  /** When no transcript can be had, the placeholder is summarized and, if the model answers
      and the post goes through, exactly one message with the episode page link is posted. */
  lemma TranscriptFailureFallsBack(file: Option<string>, feed: seq<Entry>, services: Services)
    requires feed != [] && EpisodeIdentity(feed[0]) != LoadLastEpisodeId(file)
    requires EpisodeIdentity(feed[0]).Some?
    requires FetchTranscript(services.fetchPage(feed[0].link), services.transcripts).Err?
    ensures var o := PollAndAdvance(file, feed, services).outcome;
            (o.SummaryFailed? || o.PostFailed? || o.Posted?) && o.transcript == Placeholder
    ensures services.generate(Prompt(Placeholder)).Some? ==>
              var m := Message(feed[0].title, feed[0].link, Strip(services.generate(Prompt(Placeholder)).value));
              PollAndAdvance(file, feed, services).outcome
                == if services.send(m) then Posted(Placeholder, m) else PostFailed(Placeholder, m)
  {
  }

  /** The complete run for a new episode with an identity: the fetched transcript, or the
      placeholder when fetching raised, is summarized; the stripped answer is posted with
      the title and page link; and the outcome records which stage, if any, failed. */
  lemma NewEpisodeIsSummarizedAndPosted(file: Option<string>, feed: seq<Entry>, services: Services)
    requires feed != [] && EpisodeIdentity(feed[0]) != LoadLastEpisodeId(file)
    requires EpisodeIdentity(feed[0]).Some?
    ensures var fetched := FetchTranscript(services.fetchPage(feed[0].link), services.transcripts);
            var t := if fetched.Ok? then fetched.value else Placeholder;
            var answer := services.generate(Prompt(t));
            PollAndAdvance(file, feed, services)
              == Step(if answer.None? then SummaryFailed(t)
                      else
                        var m := Message(feed[0].title, feed[0].link, Strip(answer.value));
                        if services.send(m) then Posted(t, m) else PostFailed(t, m),
                      EpisodeIdentity(feed[0]))
  {
  }

  /** A marker file holding an identity between whitespace (a trailing newline, say) reads
      back as exactly that identity. */
  lemma PaddedMarkerReadsBack(pre: string, id: string, post: string)
    requires AllSpace(pre) && AllSpace(post) && IsStripped(id)
    ensures LoadLastEpisodeId(Some(pre + id + post)) == Some(id)
  {
    StripRemovesPadding(pre, id, post);
  }

  /** The summary is the model's answer with its surrounding whitespace removed and nothing else. */
  lemma SummaryIsAnswerWithoutPadding(transcript: string, generate: string -> Option<string>,
                                      pre: string, answer: string, post: string)
    requires AllSpace(pre) && AllSpace(post) && IsStripped(answer)
    requires generate(Prompt(transcript)) == Some(pre + answer + post)
    ensures Summarize(transcript, generate) == Some(answer)
  {
    StripRemovesPadding(pre, answer, post);
  }

  /** An entry without any identity on a first run compares None with None: nothing happens. */
  lemma FirstRunWithoutIdentityIsQuiet(feed: seq<Entry>, services: Services)
    requires feed != [] && EpisodeIdentity(feed[0]).None?
    ensures PollAndAdvance(None, feed, services) == Step(NotNew, None)
  {
  }

  /** An entry without any identity once a marker exists: every run empties the marker
      file and fails before notifying, and the next run does the same. */
  lemma MissingIdentityNeverNotifies(content: string, feed: seq<Entry>, s1: Services, s2: Services)
    requires feed != [] && EpisodeIdentity(feed[0]).None?
    ensures PollAndAdvance(Some(content), feed, s1) == Step(SaveFailed, Some(""))
    ensures PollAndAdvance(Some(""), feed, s2) == Step(SaveFailed, Some(""))
  {
  }

  /** Saving does not strip but loading does: an identity with surrounding whitespace never
      matches the stored marker, so every run treats the same episode as new. */
  lemma PaddedIdentityRenotifies(file: Option<string>, feed: seq<Entry>, first: Services, second: Services)
    requires feed != [] && EpisodeIdentity(feed[0]).Some? && !IsStripped(EpisodeIdentity(feed[0]).value)
    ensures var after := PollAndAdvance(file, feed, first);
            !Quiet(after.outcome) && after.file == EpisodeIdentity(feed[0])
            && !Quiet(PollAndAdvance(after.file, feed, second).outcome)
  {
  }
}

=== FILE: feed.dfy ===
/**
  Feed polling (`check_new_episode`): the latest episode is the first entry of the
  feed, and its identity is the entry's `yt_videoid`, or its `id` when that is absent.
 */
module Feed {
  import opened Wrappers

  /** One feed entry, with the fields the bot reads. */
  datatype Entry = Entry(ytVideoId: Option<string>, id: Option<string>, title: string, link: string)

  /** `latest_entry.get("yt_videoid", latest_entry.get("id"))` */
  function EpisodeIdentity(e: Entry): (r: Option<string>)
    ensures e.ytVideoId.Some? ==> r == e.ytVideoId
    ensures e.ytVideoId.None? ==> r == e.id
    ensures r.None? <==> e.ytVideoId.None? && e.id.None?
  {
    match e.ytVideoId
    case Some(v) => Some(v)
    case None => e.id
  }

  /** The pair `(latest_entry, latest_id)`, or `(None, None)` for a feed without entries. */
  datatype Poll = NoEntries | Latest(entry: Entry, identity: Option<string>)

  function CheckNewEpisode(feed: seq<Entry>): (p: Poll)
    ensures p.NoEntries? <==> feed == []
    ensures p.Latest? ==> p.entry == feed[0] && p.identity == EpisodeIdentity(feed[0])
  {
    if feed == [] then NoEntries else Latest(feed[0], EpisodeIdentity(feed[0]))
  }

  /** Only the newest entry is looked at: older entries after it never change the poll. */
  lemma OnlyLatestEntryMatters(feed: seq<Entry>, older: seq<Entry>)
    requires feed != []
    ensures CheckNewEpisode(feed + older) == CheckNewEpisode(feed)
  {
  }

  /** The native video id decides the identity: the generic id is then irrelevant,
      so re-polls of the same episode agree even if its generic id changes. */
  lemma NativeIdDecides(e: Entry, otherId: Option<string>)
    requires e.ytVideoId.Some?
    ensures EpisodeIdentity(e.(id := otherId)) == EpisodeIdentity(e) == e.ytVideoId
  {
  }
}

=== FILE: text.dfy ===
/**
  The string operations the bot relies on: Python's `str.strip()` (applied to
  the marker file and to the model's answer) and `" ".join(...)` (used to
  flatten a transcript), with `str.split(" ")` as the inverse of the join.
 */
module Text {

  /** Python's `str.isspace()` for a single character. */
  predicate IsSpace(c: char) {
    var n := c as int;
    (0x09 <= n <= 0x0D) || (0x1C <= n <= 0x20) || n == 0x85 || n == 0xA0 || n == 0x1680
    || (0x2000 <= n <= 0x200A) || n == 0x2028 || n == 0x2029 || n == 0x202F
    || n == 0x205F || n == 0x3000
  }

  predicate AllSpace(s: string) {
    forall k :: 0 <= k < |s| ==> IsSpace(s[k])
  }

  /** Neither starts nor ends with whitespace. */
  predicate IsStripped(s: string) {
    s == [] || (!IsSpace(s[0]) && !IsSpace(s[|s| - 1]))
  }

  /** `str.lstrip()`: drops the whitespace prefix. */
  function TrimStart(s: string): (r: string)
    ensures |r| <= |s| && r == s[|s| - |r|..]
    ensures forall k :: 0 <= k < |s| - |r| ==> IsSpace(s[k])
    ensures r == [] || !IsSpace(r[0])
  {
    if s != [] && IsSpace(s[0]) then TrimStart(s[1..]) else s
  }

  /** `str.rstrip()`: drops the whitespace suffix. */
  function TrimEnd(s: string): (r: string)
    ensures |r| <= |s| && r == s[..|r|]
    ensures forall k :: |r| <= k < |s| ==> IsSpace(s[k])
    ensures r == [] || !IsSpace(r[|r| - 1])
  {
    if s != [] && IsSpace(s[|s| - 1]) then TrimEnd(s[..|s| - 1]) else s
  }

  /** `str.strip()`: drops the whitespace on both sides. */
  function Strip(s: string): (r: string)
    ensures IsStripped(r)
    ensures |r| <= |s|
  {
    TrimEnd(TrimStart(s))
  }

  /** Where the text that `strip` keeps starts: after the leading whitespace. */
  function StripOffset(s: string): nat {
    |s| - |TrimStart(s)|
  }

  lemma {:induction false} StripSliceBounds(s: string)
    ensures StripOffset(s) + |Strip(s)| <= |s|
    ensures Strip(s) == s[StripOffset(s)..StripOffset(s) + |Strip(s)|]
  {
    var t := TrimStart(s);
    assert t == s[StripOffset(s)..];
  }

  lemma {:induction false} LeadingSpace(s: string)
    ensures AllSpace(s[..StripOffset(s)])
  {
    var i := StripOffset(s);
    forall k | 0 <= k < i
      ensures IsSpace(s[..i][k])
    {
      assert s[..i][k] == s[k];
    }
  }

  lemma AllSpaceFrom(t: string, n: nat)
    requires n <= |t| && forall k :: n <= k < |t| ==> IsSpace(t[k])
    ensures AllSpace(t[n..])
  {
    forall k | 0 <= k < |t| - n
      ensures IsSpace(t[n..][k])
    {
      assert t[n..][k] == t[n + k];
    }
  }

  lemma {:induction false} TrailingSpace(s: string)
    ensures StripOffset(s) + |Strip(s)| <= |s|
    ensures AllSpace(s[StripOffset(s) + |Strip(s)|..])
  {
    StripSliceBounds(s);
    var t := TrimStart(s);
    var r := TrimEnd(t);
    AllSpaceFrom(t, |r|);
    assert s[StripOffset(s) + |r|..] == t[|r|..];
  }

  /** What `strip` removes is whitespace only: the result is the slice of `s` that
      starts at `StripOffset(s)`, and whitespace surrounds it. */
  lemma StripKeepsInnerSlice(s: string)
    ensures StripOffset(s) + |Strip(s)| <= |s|
    ensures Strip(s) == s[StripOffset(s)..StripOffset(s) + |Strip(s)|]
    ensures AllSpace(s[..StripOffset(s)]) && AllSpace(s[StripOffset(s) + |Strip(s)|..])
  {
    StripSliceBounds(s);
    LeadingSpace(s);
    TrailingSpace(s);
  }

  /** `lstrip` removes exactly a whitespace prefix put in front of text that does not start with whitespace. */
  lemma {:induction false} TrimStartDropsSpacePrefix(a: string, x: string)
    requires AllSpace(a) && (x == [] || !IsSpace(x[0]))
    ensures TrimStart(a + x) == x
  {
    if a != [] {
      assert (a + x)[1..] == a[1..] + x;
      TrimStartDropsSpacePrefix(a[1..], x);
    }
  }

  /** `rstrip` removes exactly a whitespace suffix put after text that does not end with whitespace. */
  lemma {:induction false} TrimEndDropsSpaceSuffix(x: string, b: string)
    requires AllSpace(b) && (x == [] || !IsSpace(x[|x| - 1]))
    ensures TrimEnd(x + b) == x
  {
    if b != [] {
      assert (x + b)[..|x + b| - 1] == x + b[..|b| - 1];
      TrimEndDropsSpaceSuffix(x, b[..|b| - 1]);
    }
  }

  /** Whitespace around text without surrounding whitespace is exactly what `strip` removes:
      together with `StripKeepsInnerSlice`, this pins `Strip(s)` down as the unique such slice. */
  lemma StripRemovesPadding(a: string, r: string, b: string)
    requires AllSpace(a) && AllSpace(b) && IsStripped(r)
    ensures Strip(a + r + b) == r
  {
    if r == [] {
      assert a + r + b == a + b;
      assert AllSpace(a + b);
      TrimStartDropsSpacePrefix(a + b, []);
      assert a + b + [] == a + b;
    } else {
      assert a + r + b == a + (r + b);
      TrimStartDropsSpacePrefix(a, r + b);
      TrimEndDropsSpaceSuffix(r, b);
    }
  }

  /** Stripping leaves a string unchanged exactly when it has no surrounding whitespace. */
  lemma StripFixedPoint(s: string)
    ensures Strip(s) == s <==> IsStripped(s)
  {
  }

  /** Stripping twice is stripping once. */
  lemma StripIdempotent(s: string)
    ensures Strip(Strip(s)) == Strip(s)
  {
    StripFixedPoint(Strip(s));
  }

  /** The summed lengths of `parts`. */
  function TotalLength(parts: seq<string>): nat {
    if parts == [] then 0 else |parts[0]| + TotalLength(parts[1..])
  }

  /** `" ".join(parts)`: the parts with exactly one separator between neighbours. */
  function JoinWithSpace(parts: seq<string>): (r: string)
    ensures parts == [] ==> r == ""
    ensures parts != [] ==> |r| == TotalLength(parts) + |parts| - 1
    ensures parts != [] ==> r[..|parts[0]|] == parts[0]
  {
    if parts == [] then ""
    else if |parts| == 1 then parts[0]
    else parts[0] + " " + JoinWithSpace(parts[1..])
  }

  /** `s.split(" ")`: the pieces between single spaces, empty pieces included. */
  function SplitOnSpace(s: string): (r: seq<string>)
    ensures |r| >= 1
  {
    if s == [] then [""]
    else
      var rest := SplitOnSpace(s[1..]);
      if s[0] == ' ' then [""] + rest else [[s[0]] + rest[0]] + rest[1..]
  }

  predicate SpaceFree(s: string) {
    forall k :: 0 <= k < |s| ==> s[k] != ' '
  }

  /** Joining two non-empty batches separately and then with a space is joining their concatenation. */
  lemma {:induction false} JoinAppend(a: seq<string>, b: seq<string>)
    requires a != [] && b != []
    ensures JoinWithSpace(a + b) == JoinWithSpace(a) + " " + JoinWithSpace(b)
  {
    if |a| == 1 {
      assert (a + b)[1..] == b;
    } else {
      assert (a + b)[1..] == a[1..] + b;
      JoinAppend(a[1..], b);
    }
  }

  lemma {:induction false} SplitSpaceFree(p: string)
    requires SpaceFree(p)
    ensures SplitOnSpace(p) == [p]
  {
    if p != [] {
      SplitSpaceFree(p[1..]);
      assert [p[0]] + p[1..] == p;
    }
  }

  lemma {:induction false} SplitFirstSpace(p: string, rest: string)
    requires SpaceFree(p)
    ensures SplitOnSpace(p + " " + rest) == [p] + SplitOnSpace(rest)
  {
    var s := p + " " + rest;
    if p == [] {
      assert s[1..] == rest;
    } else {
      assert s[1..] == p[1..] + " " + rest;
      SplitFirstSpace(p[1..], rest);
      assert [p[0]] + p[1..] == p;
    }
  }

  /**
    The join loses nothing and keeps the order: when no part contains a space,
    splitting the joined text on spaces gives back exactly the parts.
   */
  lemma {:induction false} SplitJoin(parts: seq<string>)
    requires parts != []
    requires forall i :: 0 <= i < |parts| ==> SpaceFree(parts[i])
    ensures SplitOnSpace(JoinWithSpace(parts)) == parts
  {
    if |parts| == 1 {
      SplitSpaceFree(parts[0]);
    } else {
      SplitFirstSpace(parts[0], JoinWithSpace(parts[1..]));
      SplitJoin(parts[1..]);
      assert [parts[0]] + parts[1..] == parts;
    }
  }
}

=== FILE: transcript.dfy ===
/**
  Transcript acquisition (`get_youtube_transcript_from_page`): resolve the video id,
  raise when there is none, otherwise fetch the segments and join their texts with
  single spaces in their original order.
 */
module Transcript {
  import opened Wrappers
  import opened Text
  import opened VideoResolver

  /** One caption segment as the transcript service returns it. */
  datatype Segment = Segment(text: string, start: real, duration: real)

  /** Why no transcript was produced: the exceptions that `main` catches. */
  datatype TranscriptError =
    | NoVideoFound    // the resolver returned None
    | ResolverFailed  // the resolver raised (HTTP error, non-string embed URL)
    | ServiceFailed   // the transcript service raised

  /** The segments' texts, in order. */
  function Texts(segments: seq<Segment>): seq<string> {
    seq(|segments|, i requires 0 <= i < |segments| => segments[i].text)
  }

  /** `" ".join(entry["text"] for entry in transcript_list)` */
  function Flatten(segments: seq<Segment>): (r: string)
    ensures segments == [] ==> r == ""
    ensures segments != [] ==> |r| == TotalLength(Texts(segments)) + |segments| - 1
    ensures segments != [] ==> r[..|segments[0].text|] == segments[0].text
  {
    JoinWithSpace(Texts(segments))
  }

  /** The texts come back out of the flattened transcript, in order, when none holds a space. */
  lemma FlattenKeepsOrder(segments: seq<Segment>)
    requires segments != []
    requires forall i :: 0 <= i < |segments| ==> SpaceFree(segments[i].text)
    ensures SplitOnSpace(Flatten(segments)) == Texts(segments)
  {
    SplitJoin(Texts(segments));
  }

  /** Flattening two batches of segments and joining them with a space is flattening them together:
      the result does not depend on how retrieval split the segments. */
  lemma FlattenBatches(a: seq<Segment>, b: seq<Segment>)
    requires a != [] && b != []
    ensures Flatten(a + b) == Flatten(a) + " " + Flatten(b)
  {
    assert Texts(a + b) == Texts(a) + Texts(b);
    JoinAppend(Texts(a), Texts(b));
  }

  /** The whole of `get_youtube_transcript_from_page`, as a function of the fetched page
      and of the transcript service. */
  function FetchTranscript(page: Page, service: string -> Option<seq<Segment>>): (r: Result<string, TranscriptError>)
    ensures r.Ok? <==> Resolve(page).Found? && service(Resolve(page).id).Some?
    ensures r.Ok? ==> r.value == Flatten(service(Resolve(page).id).value)
    ensures Resolve(page).NotFound? ==> r == Err(NoVideoFound)
  {
    match Resolve(page)
    case NotFound => Err(NoVideoFound)
    case Raised => Err(ResolverFailed)
    case Found(id) =>
      match service(id)
      case None => Err(ServiceFailed)
      case Some(segments) => Ok(Flatten(segments))
  }

  /** Without a video id the service is never consulted: the outcome is the same whatever it would answer. */
  lemma NoVideoNoFetch(page: Page, s1: string -> Option<seq<Segment>>, s2: string -> Option<seq<Segment>>)
    requires !Resolve(page).Found?
    ensures FetchTranscript(page, s1) == FetchTranscript(page, s2)
    ensures FetchTranscript(page, s1).Err?
  {
  }

  /** `get_youtube_transcript_from_page`, calling the resolver's loops. */
  method GetTranscriptFromPage(page: Page, service: string -> Option<seq<Segment>>)
    returns (r: Result<string, TranscriptError>)
    ensures r == FetchTranscript(page, service)
  {
    var videoId := ExtractVideoId(page);
    match videoId
    case NotFound =>
      r := Err(NoVideoFound);
    case Raised =>
      r := Err(ResolverFailed);
    case Found(id) =>
      var segments := service(id);
      if segments.None? {
        r := Err(ServiceFailed);
      } else {
        r := Ok(Flatten(segments.value));
      }
  }
}

=== FILE: video_resolver.dfy ===
/**
  Video-id resolution (`extract_youtube_video_id_from_url`): scan the episode
  page's JSON-LD blocks for the first `VideoObject` with an `embedUrl`, then take
  the 11-character id after `/embed/` in that URL.
 */
module VideoResolver {
  import opened Wrappers

  /** A JSON field value, as far as the resolver looks at it. `NonString` is any
      other JSON value (null, number, boolean, list, object), with its Python truthiness. */
  datatype Value = Str(s: string) | NonString(truthy: bool)

  /** One element of a JSON-LD block: a JSON object, or anything else (which has no `.get`). */
  datatype Item = Object(fields: map<string, Value>) | NonObject

  /** The outcome of `json.loads` on one `<script type="application/ld+json">` tag. */
  datatype Block =
    | Unparsable              // `json.loads` raised (or the tag had no text)
    | Single(item: Item)      // the top-level value is not a list
    | Array(items: seq<Item>) // the top-level value is a list

  /** The fetched page: its JSON-LD blocks in document order, or an HTTP failure. */
  datatype Page = Html(blocks: seq<Block>) | HttpError

  /** What the resolver does: return an id, return None, or raise. */
  datatype Resolution = Found(id: string) | NotFound | Raised

  predicate Truthy(v: Value) {
    match v
    case Str(s) => s != ""
    case NonString(t) => t
  }

  // ---------------------------------------------------------------------------
  // The pattern /embed/([A-Za-z0-9_-]{11})

  const EmbedSegment := "/embed/"
  const IdLength := 11

  predicate IdChar(c: char) {
    ('A' <= c <= 'Z') || ('a' <= c <= 'z') || ('0' <= c <= '9') || c == '_' || c == '-'
  }

  predicate IsVideoId(id: string) {
    |id| == IdLength && forall k :: 0 <= k < |id| ==> IdChar(id[k])
  }

  /** The pattern matches `s` starting at position `i`. */
  predicate MatchAt(s: string, i: nat) {
    i + |EmbedSegment| + IdLength <= |s|
    && s[i..i + |EmbedSegment|] == EmbedSegment
    && forall k :: i + |EmbedSegment| <= k < i + |EmbedSegment| + IdLength ==> IdChar(s[k])
  }

  /** The captured group of a match at `i`. */
  function Group(s: string, i: nat): string
    requires MatchAt(s, i)
  {
    s[i + |EmbedSegment|..i + |EmbedSegment| + IdLength]
  }

  /** `i` is where `re.search` finds the pattern: a match with none further left. */
  predicate LeftmostMatch(s: string, i: nat) {
    MatchAt(s, i) && forall j :: 0 <= j < i ==> !MatchAt(s, j)
  }

  /** The first match position at or after `from`. */
  function MatchFrom(s: string, from: nat): (r: Option<nat>)
    requires from <= |s|
    ensures r.Some? ==> from <= r.value && MatchAt(s, r.value)
    ensures r.Some? ==> forall j :: from <= j < r.value ==> !MatchAt(s, j)
    ensures r.None? ==> forall j :: from <= j ==> !MatchAt(s, j)
    decreases |s| - from
  {
    if from + |EmbedSegment| + IdLength > |s| then None
    else if MatchAt(s, from) then Some(from)
    else MatchFrom(s, from + 1)
  }

  /** `re.search(r"/embed/([A-Za-z0-9_-]{11})", s)` followed by `.group(1)`. */
  function SearchEmbedId(s: string): (r: Option<string>)
    ensures r.None? <==> forall j :: !MatchAt(s, j)
    ensures r.Some? ==> IsVideoId(r.value)
    ensures r.Some? ==> exists i :: LeftmostMatch(s, i) && r.value == Group(s, i)
  {
    match MatchFrom(s, 0)
    case None => None
    case Some(i) => Some(Group(s, i))
  }

  /** A match with none between `from` and it is the one `MatchFrom` finds. */
  lemma MatchFromFindsFirst(s: string, from: nat, i: nat)
    requires from <= i && MatchAt(s, i)
    requires forall j :: from <= j < i ==> !MatchAt(s, j)
    ensures MatchFrom(s, from) == Some(i)
  {
  }

  /** Whether the pattern matches at `j` depends only on the characters from `j` on
      that it covers, so text appended after them changes neither the match nor its group. */
  lemma MatchIgnoresSuffix(s: string, tail: string, j: nat)
    requires j + |EmbedSegment| + IdLength <= |s|
    ensures MatchAt(s + tail, j) == MatchAt(s, j)
    ensures MatchAt(s, j) ==> Group(s + tail, j) == Group(s, j)
  {
    var u := s + tail;
    assert u[j..j + |EmbedSegment| + IdLength] == s[j..j + |EmbedSegment| + IdLength];
    assert u[j..j + |EmbedSegment|] == s[j..j + |EmbedSegment|];
    assert forall k :: j <= k < j + |EmbedSegment| + IdLength ==> u[k] == s[k];
  }

  /** Whatever follows a found id (a query string, say) does not change it. */
  lemma SearchIgnoresSuffix(s: string, tail: string)
    requires SearchEmbedId(s).Some?
    ensures SearchEmbedId(s + tail) == SearchEmbedId(s)
  {
    var i := MatchFrom(s, 0).value;
    MatchIgnoresSuffix(s, tail, i);
    forall j | 0 <= j < i
      ensures !MatchAt(s + tail, j)
    {
      MatchIgnoresSuffix(s, tail, j);
    }
    MatchFromFindsFirst(s + tail, 0, i);
  }

  // ---------------------------------------------------------------------------
  // The JSON-LD scan

  /** `item.get("@type") == "VideoObject" and "embedUrl" in item` */
  predicate Qualifies(item: Item) {
    item.Object?
    && "@type" in item.fields && item.fields["@type"] == Str("VideoObject")
    && "embedUrl" in item.fields
  }

  function EmbedUrl(item: Item): Value
    requires Qualifies(item)
  {
    item.fields["embedUrl"]
  }

  /** `items = data if isinstance(data, list) else [data]` */
  function ItemsOf(b: Block): seq<Item> {
    match b
    case Unparsable => []
    case Single(item) => [item]
    case Array(items) => items
  }

  /** Item `k` is the one the inner loop stops at: it qualifies and every item before
      it is an object that does not (an earlier non-object would have raised). */
  predicate PickedAt(items: seq<Item>, k: nat) {
    k < |items| && Qualifies(items[k])
    && forall j :: 0 <= j < k ==> items[j].Object? && !Qualifies(items[j])
  }

  /** The `embedUrl` the inner loop assigns for one block, if it assigns one. */
  function BlockPick(items: seq<Item>): (r: Option<Value>)
    ensures r.Some? ==> exists k: nat :: k < |items| && Qualifies(items[k]) && r.value == EmbedUrl(items[k])
  {
    if items == [] then None
    else if items[0].NonObject? then None
    else if Qualifies(items[0]) then Some(EmbedUrl(items[0]))
    else BlockPick(items[1..])
  }

  /** The inner loop assigns exactly the `embedUrl` of the item it stops at, and
      assigns nothing when there is no such item. */
  lemma {:induction false} BlockPickIsFirstQualifying(items: seq<Item>)
    ensures BlockPick(items).Some? <==> exists k: nat :: PickedAt(items, k)
    ensures forall k: nat :: PickedAt(items, k) ==> BlockPick(items) == Some(EmbedUrl(items[k]))
  {
    if items == [] {
    } else if items[0].NonObject? {
      assert forall k: nat :: PickedAt(items, k) ==> k == 0;
    } else if Qualifies(items[0]) {
      assert PickedAt(items, 0);
      assert forall k: nat :: PickedAt(items, k) ==> k == 0;
    } else {
      BlockPickIsFirstQualifying(items[1..]);
      assert forall k: nat :: PickedAt(items, k) ==> k > 0 && PickedAt(items[1..], k - 1);
      assert forall k: nat :: PickedAt(items[1..], k) ==> PickedAt(items, k + 1);
    }
  }

  function BlockUrl(b: Block): Option<Value> {
    BlockPick(ItemsOf(b))
  }

  /** The block ends the outer loop: it assigns a truthy `youtube_url`. */
  predicate Stops(b: Block) {
    BlockUrl(b).Some? && Truthy(BlockUrl(b).value)
  }

  /** The truthy `youtube_url` the outer loop ends with, if any. */
  function FirstUrl(blocks: seq<Block>): (r: Option<Value>)
    ensures r.Some? ==> Truthy(r.value)
  {
    if blocks == [] then None
    else if Stops(blocks[0]) then BlockUrl(blocks[0])
    else FirstUrl(blocks[1..])
  }

  /** The scan ends with the URL of the first block that assigns a truthy one,
      and with none when no block does. */
  lemma {:induction false} FirstUrlIsFirstStopping(blocks: seq<Block>)
    ensures FirstUrl(blocks).Some? <==> exists t :: 0 <= t < |blocks| && Stops(blocks[t])
    ensures forall t :: 0 <= t < |blocks| && Stops(blocks[t]) && (forall u :: 0 <= u < t ==> !Stops(blocks[u]))
              ==> FirstUrl(blocks) == BlockUrl(blocks[t])
  {
    if blocks != [] && !Stops(blocks[0]) {
      FirstUrlIsFirstStopping(blocks[1..]);
      assert forall t :: 1 <= t < |blocks| ==> blocks[t] == blocks[1..][t - 1];
    }
  }

  /** The whole of `extract_youtube_video_id_from_url`, as a function of the fetched page. */
  function Resolve(page: Page): (r: Resolution)
    ensures r.Found? ==> IsVideoId(r.id)
    ensures r.Raised? <==> page.HttpError? || (FirstUrl(page.blocks).Some? && FirstUrl(page.blocks).value.NonString?)
    ensures r.Found? ==> page.Html? && FirstUrl(page.blocks).Some? && FirstUrl(page.blocks).value.Str?
                         && SearchEmbedId(FirstUrl(page.blocks).value.s) == Some(r.id)
    ensures r.NotFound? <==> page.Html? && (FirstUrl(page.blocks).None?
                              || (FirstUrl(page.blocks).value.Str? && SearchEmbedId(FirstUrl(page.blocks).value.s).None?))
  {
    match page
    case HttpError => Raised
    case Html(blocks) =>
      match FirstUrl(blocks)
      case None => NotFound
      case Some(NonString(_)) => Raised
      case Some(Str(s)) =>
        match SearchEmbedId(s)
        case None => NotFound
        case Some(id) => Found(id)
  }

  /** The inner loop of `extract_youtube_video_id_from_url` over one block's items: the
      `embedUrl` it assigns, or None when it assigns nothing. */
  method PickFromBlock(items: seq<Item>) returns (url: Option<Value>)
    ensures url == BlockPick(items)
  {
    var k := 0;
    while k < |items|
      invariant k <= |items|
      invariant BlockPick(items) == BlockPick(items[k..])
    {
      assert items[k..][1..] == items[k + 1..];
      var item := items[k];
      if item.NonObject? {
        // `item.get` raises; the exception handler moves on to the next tag
        return None;
      }
      if Qualifies(item) {
        return Some(EmbedUrl(item));
      }
      k := k + 1;
    }
    return None;
  }

  /** The loops of `extract_youtube_video_id_from_url`, with its `break`s and `continue`. */
  method ExtractVideoId(page: Page) returns (r: Resolution)
    ensures r == Resolve(page)
    ensures r.Found? ==> IsVideoId(r.id)
  {
    if page.HttpError? {
      return Raised;
    }
    var blocks := page.blocks;
    var youtubeUrl: Option<Value> := None;
    var t := 0;
    while t < |blocks|
      invariant t <= |blocks|
      invariant youtubeUrl.None? || !Truthy(youtubeUrl.value)
      invariant FirstUrl(blocks) == FirstUrl(blocks[t..])
    {
      assert blocks[t..][1..] == blocks[t + 1..];
      var block := blocks[t];
      if block.Unparsable? {
        t := t + 1;
        continue;
      }
      var picked := PickFromBlock(ItemsOf(block));
      if picked.Some? {
        youtubeUrl := picked;
      }
      if youtubeUrl.Some? && Truthy(youtubeUrl.value) {
        assert FirstUrl(blocks) == youtubeUrl;
        break;
      }
      t := t + 1;
    }
    assert FirstUrl(blocks) == if youtubeUrl.Some? && Truthy(youtubeUrl.value) then youtubeUrl else None;
    if youtubeUrl.Some? && Truthy(youtubeUrl.value) {
      match youtubeUrl.value
      case NonString(_) =>
        // `re.search` on a non-string raises a TypeError
        return Raised;
      case Str(s) =>
        var m := SearchEmbedId(s);
        if m.Some? {
          return Found(m.value);
        }
    }
    return NotFound;
  }

  // ---------------------------------------------------------------------------
  // Properties of the scan

  /** A block that fails to parse is skipped, wherever it is. */
  lemma {:induction false} UnparsableSkipped(pre: seq<Block>, post: seq<Block>)
    ensures FirstUrl(pre + [Unparsable] + post) == FirstUrl(pre + post)
  {
    if pre == [] {
      assert pre + [Unparsable] + post == [Unparsable] + post;
      assert pre + post == post;
      assert ([Unparsable] + post)[1..] == post;
      assert !Stops(Unparsable);
    } else {
      assert (pre + [Unparsable] + post)[1..] == pre[1..] + [Unparsable] + post;
      assert (pre + post)[1..] == pre[1..] + post;
      UnparsableSkipped(pre[1..], post);
    }
  }

  /** Once a block has stopped the scan, later blocks are never examined. */
  lemma {:induction false} LaterBlocksIgnored(pre: seq<Block>, post: seq<Block>)
    requires FirstUrl(pre).Some?
    ensures FirstUrl(pre + post) == FirstUrl(pre)
  {
    if !Stops(pre[0]) {
      assert (pre + post)[1..] == pre[1..] + post;
      LaterBlocksIgnored(pre[1..], post);
    }
  }

  /** Inside a block, a non-object item ends the block: later items are never examined. */
  lemma {:induction false} NonObjectEndsBlock(pre: seq<Item>, post: seq<Item>)
    ensures BlockPick(pre + [NonObject] + post) == BlockPick(pre)
  {
    if pre != [] && pre[0].Object? && !Qualifies(pre[0]) {
      assert (pre + [NonObject] + post)[1..] == pre[1..] + [NonObject] + post;
      NonObjectEndsBlock(pre[1..], post);
    }
  }

  /** A chosen `embedUrl` that is the empty string does not end the scan:
      the search goes on with the next block. */
  lemma EmptyEmbedUrlDoesNotStop(fields: map<string, Value>, rest: seq<Block>)
    requires Qualifies(Object(fields)) && fields["embedUrl"] == Str("")
    ensures FirstUrl([Single(Object(fields))] + rest) == FirstUrl(rest)
  {
  }

  function VideoObject(url: string): Item {
    Object(map["@type" := Str("VideoObject"), "embedUrl" := Str(url)])
  }

  /** `/embed/` followed by a video id is a match, and the id is its group. */
  lemma EmbedIsMatch(p: string, id: string)
    requires IsVideoId(id)
    ensures MatchAt(p + EmbedSegment + id, |p|) && Group(p + EmbedSegment + id, |p|) == id
  {
  }

  /** The search moves past a stretch of `s` that holds no slash. */
  lemma {:induction false} SearchSkipsSlashFree(s: string, lo: nat, hi: nat)
    requires lo <= hi <= |s| && '/' !in s[lo..hi]
    ensures MatchFrom(s, lo) == MatchFrom(s, hi)
    decreases hi - lo
  {
    if lo < hi {
      assert s[lo..hi][0] == s[lo];
      if lo + |EmbedSegment| <= |s| {
        assert s[lo..lo + |EmbedSegment|][0] == s[lo];
      }
      assert s[lo + 1..hi] == s[lo..hi][1..];
      SearchSkipsSlashFree(s, lo + 1, hi);
    }
  }

  /** The search moves past a position where `/embed/` does not fit. */
  lemma SearchSkipsMismatch(s: string, j: nat, k: nat)
    requires k < |EmbedSegment| && j + k < |s| && s[j + k] != EmbedSegment[k]
    ensures MatchFrom(s, j) == MatchFrom(s, j + 1)
  {
  }


  /** In an `https://` URL whose host holds no slash, the id after the `/embed/`
      that follows the host is the one found, whatever comes after it. The bound on
      the host's length keeps `/embed/` clear of the `//` after the scheme, so that the
      positions before the host are ruled out one mismatch at a time; shorter hosts
      are not covered here. */
  lemma SearchHttpsEmbedUrl(host: string, id: string, tail: string)
    requires |host| >= 6 && '/' !in host && IsVideoId(id)
    ensures SearchEmbedId("https://" + host + EmbedSegment + id + tail) == Some(id)
  {
    var p := "https://" + host;
    var s := p + EmbedSegment + id;
    assert s[0..6] == "https:";
    SearchSkipsSlashFree(s, 0, 6);
    SearchSkipsMismatch(s, 6, 1);
    assert s[13] == host[5];
    SearchSkipsMismatch(s, 7, 6);
    assert s[8..|p|] == host;
    SearchSkipsSlashFree(s, 8, |p|);
    EmbedIsMatch(p, id);
    assert MatchFrom(s, 0) == Some(|p|);
    SearchIgnoresSuffix(s, tail);
    assert s + tail == "https://" + host + EmbedSegment + id + tail;
  }

  // The examples below take their string literals as parameters fixed by `requires`:
  // a literal written inside an `ensures` is costly for the solver to take apart.

  lemma SampleIdIsVideoId(id: string)
    requires id == "abcDEF12345"
    ensures IsVideoId(id)
  {
  }

  /** A page whose only JSON-LD block is one `VideoObject` resolves to the id in its URL. */
  lemma SingleVideoObjectResolves(url: string, id: string)
    requires SearchEmbedId(url) == Some(id)
    ensures Resolve(Html([Single(VideoObject(url))])) == Found(id)
  {
    var blocks := [Single(VideoObject(url))];
    assert Stops(blocks[0]);
  }

  /** The id is the 11 characters after `/embed/`; the query string after them is ignored. */
  lemma EmbedUrlWithQuery(host: string, id: string, tail: string)
    requires host == "www.youtube.com" && id == "abcDEF12345" && tail == "?x=1"
    ensures Resolve(Html([Single(VideoObject("https://" + host + EmbedSegment + id + tail))])) == Found(id)
  {
    var url := "https://" + host + EmbedSegment + id + tail;
    SampleIdIsVideoId(id);
    SearchHttpsEmbedUrl(host, id, tail);
    SingleVideoObjectResolves(url, id);
  }

  /** Only the first qualifying URL is tried: if it has no `/embed/` id, the result is
      None even though a later block holds a valid embed URL. */
  lemma NoSecondCandidate(first: string, second: string)
    requires first == "https://vimeo.com/1234"
    requires second == "https://www.youtube.com/embed/abcDEF12345"
    ensures Resolve(Html([Single(VideoObject(first)), Single(VideoObject(second))])) == NotFound
  {
    var blocks := [Single(VideoObject(first)), Single(VideoObject(second))];
    assert Stops(blocks[0]);
    assert first[0..5] == "https";
    SearchSkipsSlashFree(first, 0, 5);
    assert MatchFrom(first, 5) == None;
  }
}

=== FILE: wrappers.dfy ===
/** Option and Result: absence and raised errors of the Python code as values. */
module Wrappers {

  datatype Option<+T> = None | Some(value: T) {

    /** The value, or `default` when there is none. */
    function GetOr(default: T): T {
      match this
      case Some(v) => v
      case None => default
    }
  }

  datatype Result<+T, +E> = Ok(value: T) | Err(error: E)
}
